=== FILE: README.md ===
# Cestinho shopping list: a Dafny model of the list state engine

Cestinho keeps a personal shopping list in the browser. Items have a name, a
quantity and a unit weight. They move between a *pending* and a *completed*
list. The totals of the pending list are compared with two limits to colour
a status bar. Everything is kept in the browser's key-value store, can be
exported to a JSON file and imported back, and the interface speaks
Portuguese, English or Spanish.

This project models three pieces of that program with immutable datatypes
and pure functions:

- **the list state engine** of `ShoppingListApp` (`scripts/app.js`), without its DOM calls:
  - the item and settings records and the initial state;
  - the recomputation of `nextId` after a load or an import;
  - adding, completing, restoring and deleting items;
  - the pending totals and the normal / warning / danger status;
  - the validation of the settings form;
  - the language switch, the import handler and the content of the share message;
- **persistence and the import/export codec** (`scripts/storage.js`). The
  browser store is two keys, each holding a document, unreadable text, or
  nothing. Writes may fail;
- **translation lookup and language switching** (`scripts/i18n.js`). Fetching
  a locale file is a catalog: a partial map from language code to
  translation table.

Modules, leaf first:

| file | module | contents |
|---|---|---|
| `types.dfy` | `Types` | `Item`, `Settings`, `ListData`, `Option`, `Result`, JavaScript truthiness of optional numbers |
| `rounding.dfy` | `Rounding` | `Round2`, two-decimal rounding of weights |
| `text.dfy` | `Text` | `Trim`, JavaScript's `String.prototype.trim` |
| `lists.dfy` | `Lists` | `findIndex`, `splice`, the largest id and `nextId` |
| `aggregates.dfy` | `Aggregates` | pending count and weight totals, status classification |
| `engine.dfy` | `Engine` | application state and its transitions, id invariants |
| `storage.dfy` | `Storage` | the store, loads with defaults, export, import |
| `i18n.dfy` | `I18n` | the translator: `get`, `loadTranslations`, `init`, `changeLanguage` |
| `share.dfy` | `Share` | the content of the WhatsApp share message |
| `app.dfy` | `App` | start-up, persisted mutations, language switch and import as the application runs them |

Weights are `real`. Rounding to hundredths is `Round2(x) = floor(100x + 1/2) / 100`.
Its contract says the result is a whole number of hundredths in
`(x - 0.005, x + 0.005]`, and `Round2Unique` shows that these two facts determine it.
Timestamps are opaque strings passed in by the caller. An unknown id given to
complete, restore or delete returns the state unchanged, as the code does.

### Behaviours of the code worth knowing

- An unknown id given to complete, restore or delete is silently ignored
  (`scripts/app.js:162`, `176`, `192`).
- Import checks only that `pending` and `completed` are truthy
  (`scripts/storage.js:82`). An empty list passes, and the items are never
  examined.
- `changeLanguage` saves an unsupported code before the translator refuses it
  (`scripts/app.js:342-345`). `App.UnsupportedLanguageDiverges` shows the
  result: the stored language and the interface language differ, and the
  share message falls back to Portuguese. An import whose settings name an
  unsupported language leaves the two apart in the same way
  (`scripts/app.js:363-364`, `App.ImportFile`).
- Adding, completing, restoring and deleting never lower `nextId`, but
  start-up and import recompute it from the ids present (`scripts/app.js:19`,
  `360`). So a deleted id can be handed out again after the next reload or
  import. `App.ReloadReusesDeletedId` shows this for a reload: ids 1, 2 and 3,
  delete 3, reload, `nextId` is 3. `App.ImportReusesDeletedId` shows it within
  one session: after deleting 3, importing a file holding only id 2 lowers
  `nextId` to 3 and the next add gets id 3.
- Pending totals use `totalWeight || quantity * (weight || 0)`
  (`scripts/app.js:262`). The share message lines use
  `unitWeight || weight || 0` (`scripts/app.js:430-431`). Both are kept.
  `Share.LineWeightMismatch` characterises exactly when they differ.
  `Share.FormItemsAgree` shows they never differ for items the add form
  creates. `Share.LegacyRecordExample` gives an imported record whose line
  shows 6 kg while it adds 0 kg to the totals line.

## Model

| member | source | states |
|---|---|---|
| `Engine.Initial` | scripts/app.js:5-7 | The constructor starts with two empty lists, limits of 10 units and 15 kg, Portuguese, and `nextId` 1; this state satisfies the id invariants. |
| `Rounding.Round2` | scripts/app.js:145-146 | The rounded weight is a whole number of hundredths and lies within half a hundredth of the input (ties round up). |
| `Rounding.Round2Unique` | scripts/app.js:145-146 | Any whole number of hundredths in that window is the rounded value, so the rounding is fully determined by its contract. |
| `Rounding.Round2Idempotent` | scripts/app.js:145 | Rounding a rounded weight changes nothing. |
| `Rounding.Round2Monotone` | scripts/app.js:145-146 | Rounding preserves the order of weights. |
| `Rounding.Round2NonNegative` | scripts/app.js:145-146 | A non-negative weight never rounds below zero. |
| `Text.Trim` | scripts/app.js:132 | `String.prototype.trim` applied to the item name. Described by `TrimSpec`, which characterises the result completely. |
| `Text.TrimSpec` | scripts/app.js:132 | The trimmed name is the input with only whitespace removed at either end; it neither starts nor ends with whitespace; it is empty exactly when the input is all whitespace. |
| `Lists.FindIndex` | scripts/app.js:161 | The lookup answers -1 exactly when no item has the id; otherwise it gives the first position holding the id. |
| `Lists.RemoveAt` | scripts/app.js:163 | Removing position `i` keeps the items before it, shifts the ones after it by one, and removes exactly that one item from the multiset. |
| `Lists.IdsRemoveAt` | scripts/app.js:193 | Removing position `i` removes exactly that item's id from the multiset of ids. |
| `Lists.MaxId` | scripts/app.js:19 | The largest id bounds every id in the list and belongs to one of its items. |
| `Lists.NextIdFor` | scripts/app.js:18-19 | `nextId` is 1 for no items; otherwise it is one more than an id present, and above every id. |
| `Lists.NextIdForIsFresh` | scripts/app.js:18-19 | The recomputed `nextId` is not the id of any existing item. |
| `Lists.NextIdExamples` | scripts/app.js:18-19 | Ids 3, 7 and 5 give `nextId` 8; no items give 1. |
| `Aggregates.EffectiveWeight` | scripts/app.js:262 | An item's share of the weight total, `totalWeight || quantity * (weight || 0)`. Described by `TotalsAppend`, `TotalsRemoveAt` and `NewItemWeight`, and compared with the share-message fallback by `Share.LineWeightMismatch`. |
| `Aggregates.CountTotal` | scripts/app.js:261 | The `reduce` over `quantity`. Described by `TotalsConcat`, `TotalsAppend`, `TotalsRemoveAt`, `CountTotalPositive` and `EmptyPendingIsNormal`. |
| `Aggregates.WeightTotal` | scripts/app.js:262 | The `reduce` over the effective weight. Described by `TotalsConcat`, `TotalsAppend`, `TotalsRemoveAt` and `EmptyPendingIsNormal`. |
| `Aggregates.TotalsConcat` | scripts/app.js:261-262 | Both pending totals add up over list concatenation, so the left-to-right `reduce` is a plain sum. |
| `Aggregates.TotalsRemoveAt` | scripts/app.js:261-262 | Removing one item lowers the count total by its quantity and the weight total by its effective weight. |
| `Aggregates.TotalsAppend` | scripts/app.js:261-262 | Appending one item raises the count total by its quantity and the weight total by its effective weight. |
| `Aggregates.CountTotalPositive` | scripts/app.js:261 | With positive quantities, the count total is at least the number of items and is 0 only for an empty list. |
| `Aggregates.Classify` | scripts/app.js:281-294 | The status is the worse of two levels: each total is level 0 within its limit, 1 over it, 2 over twice it. |
| `Aggregates.PendingStatus` | scripts/app.js:271-294 | The status of the pending totals against the settings. Described by `Classify`'s ensures and `EmptyPendingIsNormal`. |
| `Aggregates.ClassifyCases` | scripts/app.js:281-294 | Danger iff the count exceeds twice `maxItems` or the weight exceeds twice `maxWeight`. Otherwise warning iff either exceeds its limit. Otherwise normal. |
| `Aggregates.ClassifyMonotone` | scripts/app.js:281-294 | More units or more weight never lower the status. |
| `Aggregates.ClassifyAtLimitIsNormal` | scripts/app.js:281-282 | With non-negative limits, totals equal to the limits stay normal: only strictly greater escalates. |
| `Aggregates.ClassifyExamples` | scripts/app.js:281-294 | With the default limits 10 and 15: (10, 15.0) normal, (11, 15.0) warning, (21, 15.0) danger, (10, 30.1) danger, (20, 30.0) warning. |
| `Aggregates.EmptyPendingIsNormal` | scripts/app.js:261-262 | An empty pending list counts 0 and weighs 0 whatever is completed, and is normal under non-negative limits. |
| `Engine.Loaded` | scripts/app.js:359-360 | After a load or import the lists and settings are the given ones, and `nextId` is 1 with no items, otherwise one more than the largest id over pending and completed; every id lies below it. |
| `Engine.AddRefused` | scripts/app.js:136 | The guard `!name \|\| quantity <= 0 \|\| weight <= 0` on the trimmed name. Described by `AddItem`'s first ensures: the add fails exactly when it holds. |
| `Engine.NewItem` | scripts/app.js:141-148 | The record the add form builds. Described by `AddItem`'s ensures, field by field, and by `NewItemWeight` and `Share.FormItemsAgree`. |
| `Engine.AddItem` | scripts/app.js:131-150 | Refused exactly when the trimmed name is empty, quantity ≤ 0 or weight ≤ 0. An accepted add appends one item at the end of pending: id = old `nextId`, trimmed name, the quantity, rounded unit weight, total rounded from the unrounded product, `dateAdded`, no `dateCompleted`. Completed and settings are unchanged, `nextId` goes up by one, and the id multiset gains exactly the new id. |
| `Engine.Move` | scripts/app.js:160-186 | Moving takes the first item with the id out of the source list and appends it, marked, to the end of the target list; an absent id changes nothing; the two lengths sum to the same. |
| `Engine.MarkCompleted` | scripts/app.js:164 | Sets `dateCompleted`. Described by `CompleteItem`'s ensures. |
| `Engine.MarkRestored` | scripts/app.js:178 | Deletes `dateCompleted`. Described by `RestoreItem`'s ensures and `CompleteThenRestore`. |
| `Engine.CompleteItem` | scripts/app.js:160-172 | The first pending item with the id moves to the end of completed with `dateCompleted` set. An absent id changes nothing. Settings, `nextId`, the item count and the id multiset are preserved. |
| `Engine.RestoreItem` | scripts/app.js:174-186 | The first completed item with the id moves to the end of pending with `dateCompleted` removed. An absent id changes nothing. Settings, `nextId`, the item count and the id multiset are preserved. |
| `Engine.MovePreservesIds` | scripts/app.js:163-165 | Moving one item between the lists keeps the multiset of ids over both lists. |
| `Engine.DeleteItem` | scripts/app.js:188-199 | Only the list chosen by `fromCompleted` loses its first item with the id. The other list, the settings and `nextId` are unchanged, and an absent id changes nothing. The ids shrink to a sub-multiset. |
| `Engine.UpdateSettings` | scripts/app.js:327-334 | Refused exactly when `maxItems` < 1 or `maxWeight` < 0.1; on success only the two limits change, language, lists and `nextId` are kept. |
| `Engine.AddItemTotals` | scripts/app.js:141-150 | After an accepted add the pending count grows by the quantity and the pending weight by the rounded total. |
| `Engine.NewItemWeight` | scripts/app.js:262 | A freshly added item always contributes its rounded total to the weight total, even when that total is 0 and the fallback applies. |
| `Engine.AddItemPreservesWellFormed` | scripts/app.js:141-142 | An accepted add keeps every id below `nextId` and no id duplicated. |
| `Engine.MutationsPreserveWellFormed` | scripts/app.js:160-199 | Complete, restore and delete keep every id below `nextId` and no id duplicated, so a deleted id is not handed out again until the next reload or import recomputes `nextId`. |
| `Engine.CompleteThenRestore` | scripts/app.js:160-186 | Completing then restoring an item puts it, without `dateCompleted`, at the end of pending. Completed is as before. The pending multiset is unchanged when the item had no `dateCompleted`. |
| `Engine.DeleteTwice` | scripts/app.js:188-199 | With distinct ids, deleting the same id a second time is a no-op. |
| `Engine.UniqueIdGone` | scripts/app.js:190-193 | With distinct ids, once `splice` removes the item carrying an id, `findIndex` finds that id nowhere in that list. |
| `Engine.TwoIdsInList` | scripts/app.js:190 | Two positions of one list with the same id mean that id occurs twice over both lists. |
| `Storage.SaveData` | scripts/storage.js:7-15 | A successful write replaces the item document only and returns true; a failed one changes nothing and returns false. |
| `Storage.LoadData` | scripts/storage.js:17-25 | The stored item document is returned as written; a missing or unreadable key gives two empty lists. |
| `Storage.SaveSettings` | scripts/storage.js:27-35 | A successful write replaces the settings document only and returns true; a failed one changes nothing and returns false. |
| `Storage.LoadSettings` | scripts/storage.js:37-49 | The stored settings are returned as written; a missing or unreadable key gives 10 units, 15 kg and Portuguese. |
| `Storage.SaveLoadRoundTrip` | scripts/storage.js:7-49 | Each successful save is read back by its load, and does not disturb what the other load returns. |
| `Storage.ClearAllData` | scripts/storage.js:110-113 | Both keys are removed, so both loads return their defaults. |
| `Storage.Export` | scripts/storage.js:51-58 | The export holds the loaded lists, the loaded settings (defaults included) and the export time. |
| `Storage.Import` | scripts/storage.js:77-103 | Read and parse errors reject. A document with `pending` or `completed` missing or falsy is rejected before any write. Otherwise exactly the two lists are returned and, when writes succeed, saved. Settings are saved only if present, and otherwise the stored settings stay as they were. |
| `Storage.ExportImportRoundTrip` | scripts/storage.js:51-99 | Importing an export into any store reproduces the exported lists and settings there. |
| `Storage.ImportWithoutSettingsKeepsSettings` | scripts/storage.js:95-97 | An import without settings succeeds and leaves the stored settings, defaults included, as they were. |
| `I18n.Fresh` | scripts/i18n.js:2-6 | The translator starts in Portuguese with no translations. |
| `I18n.IsSupported` | scripts/i18n.js:75 | `supportedLanguages.includes(code)`. Described by `SupportedIsExactly`. |
| `I18n.SupportedIsExactly` | scripts/i18n.js:5 | The supported codes are exactly pt, en and es, and the default pt is among them. |
| `I18n.Get` | scripts/i18n.js:30-32 | A present, non-empty translation is returned; otherwise the key itself. |
| `I18n.LoadTranslations` | scripts/i18n.js:14-28 | A successful fetch replaces the table. After a failed fetch of another code, Portuguese is fetched exactly once. A failed Portuguese fetch is not retried and changes nothing. With total failure the old table stays. The current language is untouched. |
| `I18n.Init` | scripts/i18n.js:8-12 | The current language becomes the argument, unchecked, even when its translations fail to load. |
| `I18n.ChangeLanguage` | scripts/i18n.js:74-84 | True exactly for a supported code, which becomes the current language that `getCurrentLanguage` reports. Its table is loaded as `init` does: the code's own table, else the Portuguese one, else the old table. False for any other code, with the translator unchanged. |
| `I18n.CurrentLanguage` | scripts/i18n.js:82-84 | `getCurrentLanguage`. Described by `I18n.ChangeLanguage`'s ensures, which the language it reports follows, and by `App.UnsupportedLanguageDiverges`. |
| `I18n.InitUnknownCodeFallsBackToPortuguese` | scripts/i18n.js:8-28 | Initialising with a code that has no file keeps that code as current language, while lookups answer from the Portuguese table. |
| `Share.TextsFor` | scripts/app.js:424 | `texts[lang] \|\| texts.pt`. Described by `TextsForSupported`. |
| `Share.LineUnitWeight` | scripts/app.js:430 | The unit weight a message line shows, `unitWeight \|\| weight \|\| 0`. Described by `LineWeightMismatch`. |
| `Share.LineWeight` | scripts/app.js:431 | The weight a message line shows, `totalWeight \|\| quantity * unitWeight`. Described by `LineWeightMismatch`, `FormItemsAgree` and `LegacyRecordExample`. |
| `Share.TextsForSupported` | scripts/app.js:423-424 | Unsupported codes get the Portuguese message texts; the other supported codes get texts of their own. |
| `Share.BuildMessage` | scripts/app.js:388-436 | No message for an empty pending list. Otherwise one line per pending item in order, with the line fallback for weights, and a totals line equal to the pending totals, in the chosen language's texts. |
| `Share.LineWeightMismatch` | scripts/app.js:429-431 | A line's weight differs from the item's contribution to the totals exactly when `totalWeight` is falsy, `unitWeight` is truthy, and the unit weight gives a different product than the legacy `weight`. |
| `Share.FormItemsAgree` | scripts/app.js:141-146 | For every item the add form accepts, the line weight and the total contribution agree. |
| `Share.LegacyRecordExample` | scripts/app.js:429-435 | A record of 3 × 2 kg with no stored total shows 6 kg on its line and adds 0 kg to the totals line. |
| `App.Start` | scripts/app.js:12-22 | Start-up loads both documents with their defaults and recomputes `nextId` from the loaded ids. The translator's language is the stored one, and memory matches the store. |
| `App.Persist` | scripts/app.js:380-382 | `saveData` after a change: memory takes the new state; a successful write makes the stored lists read back as that state; the settings slot is never touched; a failed write leaves the store unchanged. |
| `App.Add` | scripts/app.js:131-154 | A refused form changes and writes nothing. An accepted one applies the add in memory and saves the lists. Memory and store stay in step when the write succeeds. |
| `App.Complete` | scripts/app.js:160-172 | Only a found id changes state. It then writes the item document and nothing else: after a successful write the store reads back the new lists; after a failed one the store is unchanged, and the next successful write puts it back in step. |
| `App.Restore` | scripts/app.js:174-186 | Only a found id changes state. It then writes the item document and nothing else: after a successful write the store reads back the new lists; after a failed one the store is unchanged, and the next successful write puts it back in step. |
| `App.Delete` | scripts/app.js:188-199 | Only a found id in the chosen list changes state. It then writes the item document and nothing else: after a successful write the store reads back the new lists; after a failed one the store is unchanged, and the next successful write puts it back in step. |
| `App.SaveSettingsForm` | scripts/app.js:322-340 | Refused limits change nothing. Accepted ones are applied and saved without touching the stored lists. |
| `App.ChangeLanguage` | scripts/app.js:342-349 | The code is always written to the settings and saved. For a supported code the translator switches to it and loads its table, or the Portuguese table when its file is missing; any other code leaves the translator unchanged. |
| `App.UnsupportedLanguageDiverges` | scripts/app.js:342-345 | After an unsupported code, the stored language is that code while the interface language differs, and the share texts fall back to Portuguese. |
| `App.ImportFile` | scripts/app.js:351-378 | No file or a failed import changes nothing. A successful one replaces the lists and recomputes `nextId` from the imported ids. Settings are re-read from the store, and memory matches the store when writes succeed. The translator switches to the re-read language when it is supported, loading its table or the Portuguese fallback, and is otherwise unchanged. |
| `App.ExportThenImport` | scripts/app.js:351-363 | Exporting from one session and importing into another carries the lists and settings across; numbering continues after the largest imported id. |
| `App.ReloadReusesDeletedId` | scripts/app.js:17-19 | With ids 1, 2 and 3 stored, start-up gives `nextId` 4, deleting id 3 keeps `nextId` 4, and starting again from the saved store gives `nextId` 3: the deleted id is handed out again. |
| `App.ImportReusesDeletedId` | scripts/app.js:351-363 | In one session: ids 1, 2 and 3 loaded, id 3 deleted (`nextId` stays 4), then a file holding only id 2 imported lowers `nextId` to 3, and the next accepted add gets id 3 again. |
| `App.ShareMessage` | scripts/app.js:388-392 | No message exactly when pending is empty; otherwise it is in the texts of the language held in memory (`this.settings.language`). |

## Left out

- DOM rendering and event wiring: the modal methods, `setupEventListeners`,
  the list redraws, `updateSettingsUI`, `i18n.updateUI`, `alert`, and all of
  `components/`. These only present state.
- Browser I/O: `localStorage`, `FileReader`, the `Blob` download,
  `window.open` and `encodeURIComponent`. They are replaced by the two-slot
  store, the `ImportSource`/`FileChoice` values and the structured share
  message. `fetch` is replaced by the catalog.
- Number parsing: `parseInt`/`parseFloat` of form fields. The model takes
  numbers that are already parsed. A `NaN` from an unparsable field passes the
  `<= 0` and `< 1` guards in the code, because every comparison with `NaN` is
  false. That case is not modelled.
- Number formatting: `toFixed(1)`/`toFixed(2)` display strings and the text
  of the share message.
- Rounding.Round2: rounds the exact real value. JavaScript rounds a binary
  double, which can differ for values that are not exactly representable.
  Negative ties round up here, where `toFixed` rounds away from zero. Add only
  rounds positive values.
- Text.IsWhitespace: lists the ECMAScript WhiteSpace and LineTerminator code
  points (U+0009–U+000D, U+0020, U+00A0, U+1680, U+2000–U+200A, U+2028,
  U+2029, U+202F, U+205F, U+3000, U+FEFF). Later Unicode versions could add
  others.
- Imported records are modelled as `Item` values. A record without a numeric
  `id` makes `Math.max` return `NaN` in the code, and a truthy non-array
  `pending` would pass the import check. Neither is modelled. For
  `{"pending": 5, "completed": []}` the check passes, the document is saved
  (`scripts/storage.js:92`) and `this.data` is replaced (`scripts/app.js:356`);
  then spreading `5` throws at `scripts/app.js:359`, so the user sees the
  import error although memory and store have already changed, and every
  later start-up throws at `scripts/app.js:18`. A `null` record does the same
  through `item.id` (`scripts/app.js:360`, `19`). A stored JSON
  `null` or a document of the wrong shape under a key is not modelled either.
- `I18n.Get`: keys that name `Object.prototype` members (such as
  `constructor`) return those members in the code. Table values are modelled
  as strings only.
- The `async`/`await` sequencing in `init`, `changeLanguage` and
  `importData`. Each is one atomic step.
- Storage.Import: one `writeOk` flag governs both of its writes, so a data
  write that succeeds followed by a settings write that fails is not modelled.
- Engine.Loaded: ids, quantities and `nextId` are unbounded integers. In
  JavaScript they are doubles, which hold whole numbers exactly only up to
  2^53. The freshness and uniqueness of ids (`IdsFresh`, `IdsUnique`,
  `AddItemPreservesWellFormed`) hold in the code only while every id stays at
  or below 2^53 − 1. An imported id of 2^53 makes `Math.max(...) + 1` round
  back to 2^53, so `nextId++` hands out duplicates from then on. Likewise
  `quantity * weight` can overflow to `Infinity`, which JSON stores as `null`.
- Aggregates.WeightTotal: weights are added and compared as exact reals. The
  code adds doubles (`scripts/app.js:262`, `272`, `282`), so pending totals of
  0.1 and 0.2 under a limit of 0.3 sum to 0.30000000000000004 and show a
  warning where `Aggregates.Classify` gives normal. `ClassifyAtLimitIsNormal`
  therefore holds of the exact totals only, not of every sum the program
  computes.
- Share.TextsFor: `texts[lang] || texts.pt` (`scripts/app.js:424`) is modelled
  for plain codes. A code naming an `Object.prototype` member (`constructor`,
  `toString`, `__proto__`), which an imported settings file can store, finds
  a non-text object there, and the message would read "undefined" instead of
  the Portuguese texts.
- Storage.AsDocument: `JSON.stringify` followed by `JSON.parse` of the export
  is taken as the identity. The code drops `undefined` fields and turns `NaN`
  into `null`, which this does not model.
- The test and tooling files (jest, eslint, cypress) hold no program logic.

=== FILE: aggregates.dfy ===
/**
 The figures shown under the pending list and the status bar: the number of
 units still to buy, their weight, and how these compare with the limits in
 the settings. Only the pending list is ever measured.
 */
module Aggregates {
  import opened Types
  import Lists

  /**
   The weight an item contributes to the totals: its stored `totalWeight`
   when that is truthy, otherwise `quantity` times the legacy `weight` field
   (or 0). The current `unitWeight` field is not consulted.
   */
  function EffectiveWeight(item: Item): real {
    OrElse(item.totalWeight, item.quantity as real * OrElse(item.weight, 0.0))
  }

  /** The `reduce` summing `quantity` over `items`, left to right from 0. */
  function CountTotal(items: seq<Item>): int {
    if |items| == 0 then 0 else CountTotal(items[..|items| - 1]) + items[|items| - 1].quantity
  }

  /** The `reduce` summing `EffectiveWeight` over `items`, left to right from 0. */
  function WeightTotal(items: seq<Item>): real {
    if |items| == 0 then 0.0 else WeightTotal(items[..|items| - 1]) + EffectiveWeight(items[|items| - 1])
  }

  /** Both totals add up over concatenation, so the order of summation does not matter. */
  lemma {:induction false} TotalsConcat(a: seq<Item>, b: seq<Item>)
    ensures CountTotal(a + b) == CountTotal(a) + CountTotal(b)
    ensures WeightTotal(a + b) == WeightTotal(a) + WeightTotal(b)
  {
    if |b| > 0 {
      var b' := b[..|b| - 1];
      assert (a + b)[..|a + b| - 1] == a + b';
      TotalsConcat(a, b');
    } else {
      assert a + b == a;
    }
  }

  /** Removing one item takes exactly its share off both totals. */
  lemma {:induction false} TotalsRemoveAt(items: seq<Item>, i: int)
    requires 0 <= i < |items|
    ensures CountTotal(Lists.RemoveAt(items, i)) == CountTotal(items) - items[i].quantity
    ensures WeightTotal(Lists.RemoveAt(items, i)) == WeightTotal(items) - EffectiveWeight(items[i])
  {
    var a, b := items[..i], items[i + 1..];
    var front := a + [items[i]];
    assert items == front + b;
    assert Lists.RemoveAt(items, i) == a + b;
    TotalsConcat(front, b);
    TotalsAppend(a, items[i]);
    TotalsConcat(a, b);
  }

  /** Appending one item adds exactly its share to both totals. */
  lemma TotalsAppend(items: seq<Item>, item: Item)
    ensures CountTotal(items + [item]) == CountTotal(items) + item.quantity
    ensures WeightTotal(items + [item]) == WeightTotal(items) + EffectiveWeight(item)
  {
    assert (items + [item])[..|items|] == items;
  }

  /** With every quantity positive, the count total is positive exactly when the list is non-empty. */
  lemma {:induction false} CountTotalPositive(items: seq<Item>)
    requires forall k :: 0 <= k < |items| ==> items[k].quantity > 0
    ensures CountTotal(items) >= |items|
    ensures CountTotal(items) == 0 <==> |items| == 0
  {
    if |items| > 0 {
      CountTotalPositive(items[..|items| - 1]);
    }
  }

  datatype Status = Normal | Warning | Danger

  /** How far a total is past its limit: 0 within it, 1 past it, 2 past twice it. */
  function Level(total: real, limit: real): nat {
    if total > 2.0 * limit then 2 else if total > limit then 1 else 0
  }

  function Rank(s: Status): nat {
    match s
    case Normal => 0
    case Warning => 1
    case Danger => 2
  }

  function Max(a: nat, b: nat): nat {
    if a >= b then a else b
  }

  /**
   The status bar: danger when either total is more than twice its limit,
   otherwise warning when either is over its limit, otherwise normal. The
   status is the worse of the two totals' levels.
   */
  function Classify(count: int, weight: real, settings: Settings): (r: Status)
    ensures Rank(r) == Max(Level(count as real, settings.maxItems as real), Level(weight, settings.maxWeight))
  {
    var itemsExceeded := count > settings.maxItems;
    var weightExceeded := weight > settings.maxWeight;
    var itemsDoubleExceeded := count > settings.maxItems * 2;
    var weightDoubleExceeded := weight > settings.maxWeight * 2.0;
    if itemsDoubleExceeded || weightDoubleExceeded then Danger
    else if itemsExceeded || weightExceeded then Warning
    else Normal
  }

  /** The status of the pending list; the completed list plays no part. */
  function PendingStatus(d: ListData, settings: Settings): Status {
    Classify(CountTotal(d.pending), WeightTotal(d.pending), settings)
  }

  /** The three cases of the status bar, with danger taking precedence over warning. */
  lemma ClassifyCases(count: int, weight: real, settings: Settings)
    ensures var r := Classify(count, weight, settings);
      && (r == Danger <==> count > 2 * settings.maxItems || weight > 2.0 * settings.maxWeight)
      && (r == Warning <==>
            && !(count > 2 * settings.maxItems || weight > 2.0 * settings.maxWeight)
            && (count > settings.maxItems || weight > settings.maxWeight))
      && (r == Normal <==>
            && count <= settings.maxItems && weight <= settings.maxWeight
            && count <= 2 * settings.maxItems && weight <= 2.0 * settings.maxWeight)
  {
  }

  /** More units or more weight never lower the status. */
  lemma ClassifyMonotone(count: int, weight: real, count': int, weight': real, settings: Settings)
    requires count <= count' && weight <= weight'
    ensures Rank(Classify(count, weight, settings)) <= Rank(Classify(count', weight', settings))
  {
  }

  /** With non-negative limits, totals that merely reach the limits stay normal. */
  lemma ClassifyAtLimitIsNormal(settings: Settings)
    requires settings.maxItems >= 0 && settings.maxWeight >= 0.0
    ensures Classify(settings.maxItems, settings.maxWeight, settings) == Normal
  {
  }

  /** The default limits of 10 units and 15 kg at, just past, and twice past each limit. */
  lemma ClassifyExamples()
    ensures Classify(10, 15.0, DefaultSettings) == Normal
    ensures Classify(11, 15.0, DefaultSettings) == Warning
    ensures Classify(21, 15.0, DefaultSettings) == Danger
    ensures Classify(10, 30.1, DefaultSettings) == Danger
    ensures Classify(20, 30.0, DefaultSettings) == Warning
  {
  }

  /** An empty pending list weighs and counts nothing, whatever the completed list holds. */
  lemma EmptyPendingIsNormal(d: ListData, settings: Settings)
    requires d.pending == [] && settings.maxItems >= 0 && settings.maxWeight >= 0.0
    ensures CountTotal(d.pending) == 0 && WeightTotal(d.pending) == 0.0
    ensures PendingStatus(d, settings) == Normal
  {
  }
}

=== FILE: app.dfy ===
/**
 The `ShoppingListApp` methods that tie the engine to the store and to the
 translator: start-up, each mutation followed by its save, the language
 switch, the import, and the share message. A `Session` is the application
 object together with the browser store and the translator it talks to.
 */
module App {
  import opened Types
  import opened Engine
  import Lists
  import Storage
  import I18n
  import Share
  import Text

  datatype Session = Session(state: AppState, store: Storage.Store, translator: I18n.Translator)

  /** The store reads back exactly the lists and the settings held in memory. */
  predicate Synced(s: Session) {
    Storage.LoadData(s.store) == s.state.data && Storage.LoadSettings(s.store) == s.state.settings
  }

  /**
   The constructor followed by `init`: both documents are loaded (defaults
   for missing or unreadable keys), `nextId` is recomputed from the loaded
   ids, and the translator is initialised with the stored language.
   */
  function Start(store: Storage.Store, catalog: I18n.Catalog): (r: Session)
    ensures r.state.data == Storage.LoadData(store) && r.state.settings == Storage.LoadSettings(store)
    ensures r.store == store
    ensures AllItems(r.state.data) == [] ==> r.state.nextId == 1
    ensures AllItems(r.state.data) != [] ==> Lists.Contains(AllItems(r.state.data), r.state.nextId - 1)
    ensures IdsFresh(r.state)
    ensures r.translator.currentLanguage == r.state.settings.language
    ensures Synced(r)
  {
    var state := Loaded(Storage.LoadData(store), Storage.LoadSettings(store));
    Session(state, store, I18n.Init(I18n.Fresh(), state.settings.language, catalog))
  }

  /**
   `saveData` after a change: only the item document is written. The change
   stays in memory even if the write fails, and the next successful write
   brings the store back in step.
   */
  function Persist(s: Session, state: AppState, writeOk: bool): (r: Session)
    ensures r.state == state && r.translator == s.translator
    ensures writeOk ==> Storage.LoadData(r.store) == state.data
    ensures r.store.settings == s.store.settings
    ensures !writeOk ==> r.store == s.store
  {
    s.(state := state, store := Storage.SaveData(s.store, state.data, writeOk).store)
  }

  /**
   `addItemFromModal`: a refused form changes nothing and writes nothing; an
   accepted one applies `AddItem` and saves the lists.
   */
  function Add(s: Session, rawName: string, quantity: int, weight: real, now: Timestamp, writeOk: bool): (r: Session)
    ensures AddRefused(rawName, quantity, weight) ==> r == s
    ensures !AddRefused(rawName, quantity, weight) ==>
      && r.state == AddItem(s.state, rawName, quantity, weight, now).value
      && (writeOk ==> Storage.LoadData(r.store) == r.state.data)
      && r.store.settings == s.store.settings
    ensures Synced(s) && writeOk ==> Synced(r)
  {
    match AddItem(s.state, rawName, quantity, weight, now)
    case Failure(_) => s
    case Success(state) => Persist(s, state, writeOk)
  }

  /** `completeItem`: only a found id changes and saves anything. */
  function Complete(s: Session, id: int, now: Timestamp, writeOk: bool): (r: Session)
    ensures !Lists.Contains(s.state.data.pending, id) ==> r == s
    ensures r.state == CompleteItem(s.state, id, now) && r.translator == s.translator
    ensures Lists.Contains(s.state.data.pending, id) ==>
      && (writeOk ==> Storage.LoadData(r.store) == r.state.data)
      && r.store.settings == s.store.settings
      && (!writeOk ==> r.store == s.store)
    ensures Synced(s) && writeOk ==> Synced(r)
  {
    if Lists.Contains(s.state.data.pending, id) then Persist(s, CompleteItem(s.state, id, now), writeOk) else s
  }

  /** `restoreItem`: only a found id changes and saves anything. */
  function Restore(s: Session, id: int, writeOk: bool): (r: Session)
    ensures !Lists.Contains(s.state.data.completed, id) ==> r == s
    ensures r.state == RestoreItem(s.state, id) && r.translator == s.translator
    ensures Lists.Contains(s.state.data.completed, id) ==>
      && (writeOk ==> Storage.LoadData(r.store) == r.state.data)
      && r.store.settings == s.store.settings
      && (!writeOk ==> r.store == s.store)
    ensures Synced(s) && writeOk ==> Synced(r)
  {
    if Lists.Contains(s.state.data.completed, id) then Persist(s, RestoreItem(s.state, id), writeOk) else s
  }

  /** `deleteItem`: only a found id changes and saves anything. */
  function Delete(s: Session, id: int, fromCompleted: bool, writeOk: bool): (r: Session)
    ensures var list := if fromCompleted then s.state.data.completed else s.state.data.pending;
            !Lists.Contains(list, id) ==> r == s
    ensures r.state == DeleteItem(s.state, id, fromCompleted) && r.translator == s.translator
    ensures var list := if fromCompleted then s.state.data.completed else s.state.data.pending;
            Lists.Contains(list, id) ==>
      && (writeOk ==> Storage.LoadData(r.store) == r.state.data)
      && r.store.settings == s.store.settings
      && (!writeOk ==> r.store == s.store)
    ensures Synced(s) && writeOk ==> Synced(r)
  {
    var list := if fromCompleted then s.state.data.completed else s.state.data.pending;
    if Lists.Contains(list, id) then Persist(s, DeleteItem(s.state, id, fromCompleted), writeOk) else s
  }

  /** `saveSettingsFromModal`: refused limits change nothing; accepted ones are applied and saved. */
  function SaveSettingsForm(s: Session, maxItems: int, maxWeight: real, writeOk: bool): (r: Session)
    ensures maxItems < 1 || maxWeight < 0.1 ==> r == s
    ensures !(maxItems < 1 || maxWeight < 0.1) ==>
      && r.state == UpdateSettings(s.state, maxItems, maxWeight).value
      && (writeOk ==> Storage.LoadSettings(r.store) == r.state.settings)
      && r.store.data == s.store.data
    ensures Synced(s) && writeOk ==> Synced(r)
  {
    match UpdateSettings(s.state, maxItems, maxWeight)
    case Failure(_) => s
    case Success(state) =>
      s.(state := state, store := Storage.SaveSettings(s.store, state.settings, writeOk).store)
  }

  /**
   `changeLanguage`: the code is written into the settings and saved first,
   and only then offered to the translator, which ignores unsupported codes.
   So an unsupported code is persisted while the interface keeps its language.
   */
  function ChangeLanguage(s: Session, code: string, catalog: I18n.Catalog, writeOk: bool): (r: Session)
    ensures r.state.settings == s.state.settings.(language := code)
    ensures r.state.data == s.state.data && r.state.nextId == s.state.nextId
    ensures writeOk ==> Storage.LoadSettings(r.store) == r.state.settings
    ensures I18n.IsSupported(code) ==> r.translator.currentLanguage == code
    ensures I18n.IsSupported(code) && code in catalog ==> r.translator.translations == catalog[code]
    ensures I18n.IsSupported(code) && code !in catalog && code != I18n.DefaultLanguage
              && I18n.DefaultLanguage in catalog ==>
              r.translator.translations == catalog[I18n.DefaultLanguage]
    ensures !I18n.IsSupported(code) ==> r.translator == s.translator
    ensures Synced(s) && writeOk ==> Synced(r)
  {
    var state := s.state.(settings := s.state.settings.(language := code));
    var store := Storage.SaveSettings(s.store, state.settings, writeOk).store;
    Session(state, store, I18n.ChangeLanguage(s.translator, code, catalog).0)
  }

  /** An unsupported code leaves the stored language and the interface language apart. */
  lemma UnsupportedLanguageDiverges(s: Session, code: string, catalog: I18n.Catalog)
    requires !I18n.IsSupported(code) && I18n.IsSupported(s.translator.currentLanguage)
    ensures var r := ChangeLanguage(s, code, catalog, true);
      && Storage.LoadSettings(r.store).language == code
      && I18n.CurrentLanguage(r.translator) != Storage.LoadSettings(r.store).language
      && Share.TextsFor(r.state.settings.language) == Share.TextsFor(I18n.DefaultLanguage)
  {
    Share.TextsForSupported(code);
  }

  /** The file input: nothing chosen, or a file as the reader delivers it. */
  datatype FileChoice = NoFile | File(source: Storage.ImportSource)

  /**
   `importData`: without a file, or when the import fails, nothing changes.
   On success the imported lists replace the ones in memory, `nextId` is
   recomputed from their ids, the settings are read back from the store, and
   the translator is switched to the stored language.
   */
  function ImportFile(s: Session, file: FileChoice, catalog: I18n.Catalog, writeOk: bool): (r: Session)
    ensures file.NoFile? ==> r == s
    ensures file.File? && Storage.Import(s.store, file.source, writeOk).Failure? ==> r == s
    ensures file.File? && Storage.Import(s.store, file.source, writeOk).Success? ==>
      var imported := Storage.Import(s.store, file.source, writeOk).value;
      && r.store == imported.store
      && r.state.data == imported.data
      && r.state.settings == Storage.LoadSettings(imported.store)
      && (AllItems(imported.data) == [] ==> r.state.nextId == 1)
      && (forall k :: 0 <= k < |AllItems(imported.data)| ==> AllItems(imported.data)[k].id < r.state.nextId)
      && (AllItems(imported.data) != [] ==> Lists.Contains(AllItems(imported.data), r.state.nextId - 1))
      && (writeOk ==> Synced(r))
      && var language := Storage.LoadSettings(imported.store).language;
         && (I18n.IsSupported(language) ==> r.translator.currentLanguage == language)
         && (I18n.IsSupported(language) && language in catalog ==>
               r.translator.translations == catalog[language])
         && (I18n.IsSupported(language) && language !in catalog && language != I18n.DefaultLanguage
               && I18n.DefaultLanguage in catalog ==>
               r.translator.translations == catalog[I18n.DefaultLanguage])
         && (!I18n.IsSupported(language) ==> r.translator == s.translator)
  {
    match file
    case NoFile => s
    case File(source) =>
      match Storage.Import(s.store, source, writeOk)
      case Failure(_) => s
      case Success(imported) =>
        var state := Loaded(imported.data, Storage.LoadSettings(imported.store));
        Session(state, imported.store, I18n.ChangeLanguage(s.translator, state.settings.language, catalog).0)
  }

  /**
   Exporting from one session and importing the file into another carries
   the lists and the settings across, and the receiving session continues
   numbering after the largest imported id.
   */
  lemma ExportThenImport(s: Session, other: Session, now: Timestamp, catalog: I18n.Catalog)
    requires Synced(s)
    ensures var file := File(Storage.Parsed(Storage.AsDocument(Storage.Export(s.store, now))));
            var r := ImportFile(other, file, catalog, true);
      && r.state.data == s.state.data
      && r.state.settings == s.state.settings
      && r.state.nextId == Lists.NextIdFor(AllItems(s.state.data))
      && Synced(r)
  {
    Storage.ExportImportRoundTrip(s.store, other.store, now);
  }

  /** Ids 1, 2 and 3 in the pending list, as an earlier session saved them. */
  const ThreeItems: Storage.Store :=
    Storage.Store(Storage.Holds(ListData([Lists.SampleItem(1), Lists.SampleItem(2), Lists.SampleItem(3)], [])),
                  Storage.Empty)

  /** Starting on `ThreeItems` loads the three items and continues at 4. */
  lemma StartThreeItems(catalog: I18n.Catalog)
    ensures var s := Start(ThreeItems, catalog);
      && s.state.data == ListData([Lists.SampleItem(1), Lists.SampleItem(2), Lists.SampleItem(3)], [])
      && s.state.nextId == 4
  {
    var items := [Lists.SampleItem(1), Lists.SampleItem(2), Lists.SampleItem(3)];
    assert Lists.MaxId(items[2..]) == 3;
    assert Lists.MaxId(items[1..]) == 3;
  }

  /** Deleting id 3 from pending ids 1, 2, 3 leaves ids 1 and 2, in memory and in the store. */
  lemma DeleteThree(s: Session)
    requires s.state.data == ListData([Lists.SampleItem(1), Lists.SampleItem(2), Lists.SampleItem(3)], [])
    ensures var d := Delete(s, 3, false, true);
      && d.state.data == ListData([Lists.SampleItem(1), Lists.SampleItem(2)], [])
      && d.state.nextId == s.state.nextId
      && Storage.LoadData(d.store) == d.state.data
  {
    var items := s.state.data.pending;
    assert items[0].id != 3 && items[1].id != 3;
    assert Lists.FindIndex(items, 3) == 2 by {
      assert items[..2] == [Lists.SampleItem(1), Lists.SampleItem(2)];
    }
    assert Lists.RemoveAt(items, 2) == [Lists.SampleItem(1), Lists.SampleItem(2)];
  }

  /** Whatever else the store holds, starting on pending ids 1 and 2 continues at 3. */
  lemma StartTwoItems(store: Storage.Store, catalog: I18n.Catalog)
    requires Storage.LoadData(store) == ListData([Lists.SampleItem(1), Lists.SampleItem(2)], [])
    ensures Start(store, catalog).state.nextId == 3
  {
    var kept := [Lists.SampleItem(1), Lists.SampleItem(2)];
    assert AllItems(Storage.LoadData(store)) == kept;
    assert Lists.MaxId(kept[1..]) == 2;
  }

  /**
   Adds, completes, restores and deletes never lower `nextId`, but start-up
   recomputes it from the ids present: after the item with the largest id is
   deleted and the page reloads, that id is handed out again.
   */
  lemma ReloadReusesDeletedId(catalog: I18n.Catalog)
    ensures var s := Start(ThreeItems, catalog);
            var d := Delete(s, 3, false, true);
      && s.state.nextId == 4
      && d.state.nextId == 4
      && AllItems(d.state.data) == [Lists.SampleItem(1), Lists.SampleItem(2)]
      && Start(d.store, catalog).state.nextId == 3
  {
    StartThreeItems(catalog);
    var s := Start(ThreeItems, catalog);
    DeleteThree(s);
    StartTwoItems(Delete(s, 3, false, true).store, catalog);
  }

  /** A file holding a single pending item with id 2 and no settings. */
  const OnlyIdTwo: FileChoice :=
    File(Storage.Parsed(Storage.Document(Some([Lists.SampleItem(2)]), Some([]), None, None)))

  /** Whatever the session held before, importing `OnlyIdTwo` sets `nextId` to 3. */
  lemma ImportOnlyIdTwo(s: Session, catalog: I18n.Catalog)
    ensures var i := ImportFile(s, OnlyIdTwo, catalog, true);
      && i.state.data == ListData([Lists.SampleItem(2)], [])
      && i.state.nextId == 3
  {
    var i := ImportFile(s, OnlyIdTwo, catalog, true);
    assert AllItems(i.state.data) == [Lists.SampleItem(2)];
  }

  /** A non-blank name with positive numbers is accepted and gets the current `nextId`. */
  lemma AddMilk(s: Session, now: Timestamp)
    ensures var a := Add(s, "milk", 1, 1.0, now, true);
      && |a.state.data.pending| == |s.state.data.pending| + 1
      && a.state.data.pending[|s.state.data.pending|].id == s.state.nextId
  {
    Text.TrimSpec("milk");
    assert !Text.IsWhitespace("milk"[0]);
  }

  /**
   An import in the same session recomputes `nextId` as well: after id 3 is
   deleted, importing a file that holds only id 2 lowers `nextId` to 3, and
   the next add hands out id 3 again.
   */
  lemma ImportReusesDeletedId(catalog: I18n.Catalog, now: Timestamp)
    ensures var d := Delete(Start(ThreeItems, catalog), 3, false, true);
            var i := ImportFile(d, OnlyIdTwo, catalog, true);
            var a := Add(i, "milk", 1, 1.0, now, true);
      && d.state.nextId == 4
      && i.state.nextId == 3
      && |a.state.data.pending| == 2
      && a.state.data.pending[1].id == 3
  {
    ReloadReusesDeletedId(catalog);
    var d := Delete(Start(ThreeItems, catalog), 3, false, true);
    ImportOnlyIdTwo(d, catalog);
    AddMilk(ImportFile(d, OnlyIdTwo, catalog, true), now);
  }

  /** `exportToWhatsApp`: no message for an empty pending list; otherwise the message in the stored language. */
  function ShareMessage(s: Session): (r: Option<Share.Message>)
    ensures r.None? <==> s.state.data.pending == []
    ensures r.Some? ==> r.value.texts == Share.TextsFor(s.state.settings.language)
  {
    Share.BuildMessage(s.state.data.pending, s.state.settings.language)
  }
}

=== FILE: engine.dfy ===
/**
 The list state engine of `ShoppingListApp`: the two item lists, the
 settings and the id counter, and the operations that change them, with the
 DOM reads and redraws taken out. Form values arrive already parsed; the
 clock arrives as a `Timestamp` argument.
 */
module Engine {
  import opened Types
  import opened Lists
  import Rounding
  import Text
  import Aggregates

  /** The fields `data`, `settings` and `nextId` of the application object. */
  datatype AppState = AppState(data: ListData, settings: Settings, nextId: int)

  datatype AddError = InvalidItem

  datatype SettingsError = InvalidLimits

  /** No id in use has reached `nextId`, so the next added item gets a fresh id. */
  ghost predicate IdsFresh(s: AppState) {
    forall x :: x in IdBag(s.data) ==> x < s.nextId
  }

  /** No id occurs twice across the pending and the completed list. */
  ghost predicate IdsUnique(s: AppState) {
    forall x :: IdBag(s.data)[x] <= 1
  }

  ghost predicate WellFormed(s: AppState) {
    IdsFresh(s) && IdsUnique(s)
  }

  /** The state the constructor sets up before anything is loaded. */
  function Initial(): (s: AppState)
    ensures s.data.pending == [] && s.data.completed == []
    ensures s.settings == DefaultSettings && s.settings.language == "pt"
    ensures s.nextId == 1
    ensures WellFormed(s)
  {
    AppState(EmptyData, DefaultSettings, 1)
  }

  /**
   The state after `init` or an import has put `data` and `settings` in place:
   `nextId` is recomputed from the ids present, one past the largest, or 1
   when both lists are empty.
   */
  function Loaded(data: ListData, settings: Settings): (s: AppState)
    ensures s.data == data && s.settings == settings
    ensures AllItems(data) == [] ==> s.nextId == 1
    ensures forall k :: 0 <= k < |AllItems(data)| ==> AllItems(data)[k].id < s.nextId
    ensures AllItems(data) != [] ==> Contains(AllItems(data), s.nextId - 1)
    ensures IdsFresh(s)
  {
    var s := AppState(data, settings, NextIdFor(AllItems(data)));
    NextIdForIsFresh(AllItems(data));
    s
  }

  /** The item `addItemFromModal` builds from valid form values. */
  function NewItem(id: int, name: string, quantity: int, weight: real, now: Timestamp): Item {
    Item(id, name, quantity,
         Some(Rounding.Round2(weight)),
         None,
         Some(Rounding.Round2(quantity as real * weight)),
         Some(now),
         None)
  }

  /** The guard of `addItemFromModal`: a blank name or a non-positive number refuses the item. */
  predicate AddRefused(rawName: string, quantity: int, weight: real) {
    |Text.Trim(rawName)| == 0 || quantity <= 0 || weight <= 0.0
  }

  /**
   Adding an item. A refused form leaves the state as it was; an accepted one
   appends exactly one item to the end of the pending list under the current
   `nextId`, and moves `nextId` on by one. The unit weight and the total
   weight are each rounded to hundredths, the total from the unrounded input.
   */
  function AddItem(s: AppState, rawName: string, quantity: int, weight: real, now: Timestamp): (r: Result<AppState, AddError>)
    ensures r.Failure? <==> AddRefused(rawName, quantity, weight)
    ensures r.Success? ==>
      var p, p' := s.data.pending, r.value.data.pending;
      && |p'| == |p| + 1 && p'[..|p|] == p
      && p'[|p|].id == s.nextId
      && p'[|p|].name == Text.Trim(rawName) && |p'[|p|].name| > 0
      && p'[|p|].quantity == quantity
      && p'[|p|].unitWeight == Some(Rounding.Round2(weight))
      && p'[|p|].totalWeight == Some(Rounding.Round2(quantity as real * weight))
      && p'[|p|].dateAdded == Some(now) && p'[|p|].dateCompleted == None
      && r.value.data.completed == s.data.completed
      && r.value.settings == s.settings
      && r.value.nextId == s.nextId + 1
      && IdBag(r.value.data) == IdBag(s.data) + multiset{s.nextId}
  {
    if AddRefused(rawName, quantity, weight) then Failure(InvalidItem)
    else
      var item := NewItem(s.nextId, Text.Trim(rawName), quantity, weight, now);
      var d := ListData(s.data.pending + [item], s.data.completed);
      assert d.pending[..|s.data.pending|] == s.data.pending;
      IdsConcat(s.data.pending, [item]);
      IdsConcat(s.data.pending, s.data.completed);
      IdsConcat(s.data.pending + [item], s.data.completed);
      Success(AppState(d, s.settings, s.nextId + 1))
  }

  /**
   Moves the first item of `source` carrying `id` to the end of `target`,
   transformed by `mark`. An id absent from `source` changes nothing.
   Shared by `completeItem` and `restoreItem`.
   */
  function Move(source: seq<Item>, target: seq<Item>, id: int, mark: Item -> Item): (r: (seq<Item>, seq<Item>))
    ensures !Contains(source, id) ==> r == (source, target)
    ensures Contains(source, id) ==>
      var i := FindIndex(source, id);
      && r.0 == RemoveAt(source, i)
      && |r.1| == |target| + 1 && r.1[..|target|] == target && r.1[|target|] == mark(source[i])
    ensures |r.0| + |r.1| == |source| + |target|
  {
    var i := FindIndex(source, id);
    if i == -1 then (source, target)
    else
      var t := target + [mark(source[i])];
      assert t[..|target|] == target;
      (RemoveAt(source, i), t)
  }

  function MarkCompleted(now: Timestamp): Item -> Item {
    (item: Item) => item.(dateCompleted := Some(now))
  }

  function MarkRestored(item: Item): Item {
    item.(dateCompleted := None)
  }

  /**
   Marking an item bought: the first pending item with `id` leaves the pending
   list, gains `dateCompleted`, and goes to the end of the completed list. An
   unknown id is silently ignored. The ids in use stay the same.
   */
  function CompleteItem(s: AppState, id: int, now: Timestamp): (r: AppState)
    ensures !Contains(s.data.pending, id) ==> r == s
    ensures Contains(s.data.pending, id) ==>
      var i := FindIndex(s.data.pending, id);
      && r.data.pending == RemoveAt(s.data.pending, i)
      && r.data.completed == s.data.completed + [s.data.pending[i].(dateCompleted := Some(now))]
    ensures r.settings == s.settings && r.nextId == s.nextId
    ensures |r.data.pending| + |r.data.completed| == |s.data.pending| + |s.data.completed|
    ensures IdBag(r.data) == IdBag(s.data)
  {
    var m := Move(s.data.pending, s.data.completed, id, MarkCompleted(now));
    if !Contains(s.data.pending, id) then s
    else
      MovePreservesIds(s.data.pending, s.data.completed, FindIndex(s.data.pending, id), m.0, m.1);
      s.(data := ListData(m.0, m.1))
  }

  /**
   Putting an item back: the first completed item with `id` leaves the
   completed list, loses `dateCompleted`, and goes to the end of the pending
   list. An unknown id is silently ignored. The ids in use stay the same.
   */
  function RestoreItem(s: AppState, id: int): (r: AppState)
    ensures !Contains(s.data.completed, id) ==> r == s
    ensures Contains(s.data.completed, id) ==>
      var i := FindIndex(s.data.completed, id);
      && r.data.completed == RemoveAt(s.data.completed, i)
      && r.data.pending == s.data.pending + [s.data.completed[i].(dateCompleted := None)]
    ensures r.settings == s.settings && r.nextId == s.nextId
    ensures |r.data.pending| + |r.data.completed| == |s.data.pending| + |s.data.completed|
    ensures IdBag(r.data) == IdBag(s.data)
  {
    var m := Move(s.data.completed, s.data.pending, id, MarkRestored);
    if !Contains(s.data.completed, id) then s
    else
      MovePreservesIds(s.data.completed, s.data.pending, FindIndex(s.data.completed, id), m.0, m.1);
      s.(data := ListData(m.1, m.0))
  }

  /** Moving the item at `i` from one list to the other keeps the ids of the two lists together. */
  lemma MovePreservesIds(source: seq<Item>, target: seq<Item>, i: int, source': seq<Item>, target': seq<Item>)
    requires 0 <= i < |source|
    requires source' == RemoveAt(source, i)
    requires |target'| == |target| + 1 && target'[..|target|] == target && target'[|target|].id == source[i].id
    ensures IdBag(ListData(source', target')) == IdBag(ListData(source, target))
    ensures IdBag(ListData(target', source')) == IdBag(ListData(target, source))
  {
    var x := source[i].id;
    IdsRemoveAt(source, i);
    assert target' == target + [target'[|target|]];
    IdsConcat(target, [target'[|target|]]);
    assert multiset(Ids(target')) == multiset(Ids(target)) + multiset{x};
    IdBagParts(ListData(source', target'));
    IdBagParts(ListData(source, target));
    IdBagParts(ListData(target', source'));
    IdBagParts(ListData(target, source));
  }

  /**
   Deleting an item: the first item with `id` is removed from the list that
   `fromCompleted` selects; the other list, the settings and `nextId` are
   untouched, so a deleted id is not handed out again until the next reload
   or import, both of which recompute `nextId` from the ids present and can
   hand it out once more (`App.ReloadReusesDeletedId`,
   `App.ImportReusesDeletedId`). An unknown id is silently ignored.
   */
  function DeleteItem(s: AppState, id: int, fromCompleted: bool): (r: AppState)
    ensures r.settings == s.settings && r.nextId == s.nextId
    ensures fromCompleted ==> r.data.pending == s.data.pending
    ensures !fromCompleted ==> r.data.completed == s.data.completed
    ensures var list := if fromCompleted then s.data.completed else s.data.pending;
            var list' := if fromCompleted then r.data.completed else r.data.pending;
            && (!Contains(list, id) ==> r == s)
            && (Contains(list, id) ==> list' == RemoveAt(list, FindIndex(list, id)))
    ensures IdBag(r.data) <= IdBag(s.data)
  {
    var list := if fromCompleted then s.data.completed else s.data.pending;
    var i := FindIndex(list, id);
    if i == -1 then s
    else
      var list' := RemoveAt(list, i);
      var d := if fromCompleted then ListData(s.data.pending, list') else ListData(list', s.data.completed);
      IdsRemoveAt(list, i);
      IdsConcat(s.data.pending, s.data.completed);
      IdsConcat(d.pending, d.completed);
      s.(data := d)
  }

  /**
   Saving the limits from the settings form: refused when `maxItems` is below 1
   or `maxWeight` below 0.1; otherwise both limits are replaced and the
   language and the lists are untouched.
   */
  function UpdateSettings(s: AppState, maxItems: int, maxWeight: real): (r: Result<AppState, SettingsError>)
    ensures r.Failure? <==> maxItems < 1 || maxWeight < 0.1
    ensures r.Success? ==>
      && r.value.settings.maxItems == maxItems && r.value.settings.maxWeight == maxWeight
      && r.value.settings.language == s.settings.language
      && r.value.data == s.data && r.value.nextId == s.nextId
  {
    if maxItems < 1 || maxWeight < 0.1 then Failure(InvalidLimits)
    else Success(s.(settings := s.settings.(maxItems := maxItems, maxWeight := maxWeight)))
  }

  /** The pending list after an accepted add measures exactly the new item more. */
  lemma AddItemTotals(s: AppState, rawName: string, quantity: int, weight: real, now: Timestamp)
    requires !AddRefused(rawName, quantity, weight)
    ensures var p, p' := s.data.pending, AddItem(s, rawName, quantity, weight, now).value.data.pending;
      && Aggregates.CountTotal(p') == Aggregates.CountTotal(p) + quantity
      && Aggregates.WeightTotal(p') == Aggregates.WeightTotal(p) + Rounding.Round2(quantity as real * weight)
  {
    var p := s.data.pending;
    var item := NewItem(s.nextId, Text.Trim(rawName), quantity, weight, now);
    assert AddItem(s, rawName, quantity, weight, now).value.data.pending == p + [item];
    Aggregates.TotalsAppend(p, item);
    NewItemWeight(quantity, weight);
  }

  /**
   A fresh item always weighs its rounded total in the totals: when the
   rounded total is 0 (so falsy), the fallback yields 0 as well, because the
   item has no legacy `weight` field.
   */
  lemma NewItemWeight(quantity: int, weight: real)
    ensures forall id, name, now :: Aggregates.EffectiveWeight(NewItem(id, name, quantity, weight, now))
                                   == Rounding.Round2(quantity as real * weight)
  {
  }

  /** Every accepted add keeps the ids fresh and distinct. */
  lemma AddItemPreservesWellFormed(s: AppState, rawName: string, quantity: int, weight: real, now: Timestamp)
    requires WellFormed(s)
    requires !AddRefused(rawName, quantity, weight)
    ensures WellFormed(AddItem(s, rawName, quantity, weight, now).value)
  {
    var r := AddItem(s, rawName, quantity, weight, now).value;
    assert s.nextId !in IdBag(s.data);
    forall x ensures IdBag(r.data)[x] <= 1 {
      if x == s.nextId {
        assert IdBag(s.data)[x] == 0;
      }
    }
  }

  /** Completing, restoring and deleting keep the ids fresh and distinct. */
  lemma MutationsPreserveWellFormed(s: AppState, id: int, now: Timestamp, fromCompleted: bool)
    requires WellFormed(s)
    ensures WellFormed(CompleteItem(s, id, now))
    ensures WellFormed(RestoreItem(s, id))
    ensures WellFormed(DeleteItem(s, id, fromCompleted))
  {
    var d := DeleteItem(s, id, fromCompleted);
    assert forall x :: IdBag(d.data)[x] <= IdBag(s.data)[x];
  }

  /**
   Completing an item and restoring it again returns it to the end of the
   pending list with no `dateCompleted`; the completed list is as before.
   */
  lemma CompleteThenRestore(s: AppState, id: int, now: Timestamp)
    requires Contains(s.data.pending, id) && !Contains(s.data.completed, id)
    ensures var i := FindIndex(s.data.pending, id);
            var r := RestoreItem(CompleteItem(s, id, now), id);
      && r.data.pending == RemoveAt(s.data.pending, i) + [s.data.pending[i].(dateCompleted := None)]
      && r.data.completed == s.data.completed
      && r.settings == s.settings && r.nextId == s.nextId
      && (s.data.pending[i].dateCompleted == None ==> multiset(r.data.pending) == multiset(s.data.pending))
  {
    var i := FindIndex(s.data.pending, id);
    var c := CompleteItem(s, id, now);
    var item := s.data.pending[i].(dateCompleted := Some(now));
    assert c.data.completed == s.data.completed + [item];
    assert FindIndex(c.data.completed, id) == |s.data.completed| by {
      assert c.data.completed[|s.data.completed|].id == id;
      assert c.data.completed[..|s.data.completed|] == s.data.completed;
    }
    assert RemoveAt(c.data.completed, |s.data.completed|) == s.data.completed;
  }

  /** With distinct ids, deleting the same id a second time changes nothing. */
  lemma DeleteTwice(s: AppState, id: int, fromCompleted: bool)
    requires IdsUnique(s)
    ensures var d := DeleteItem(s, id, fromCompleted);
            DeleteItem(d, id, fromCompleted) == d
  {
    var list := if fromCompleted then s.data.completed else s.data.pending;
    if Contains(list, id) {
      UniqueIdGone(s, list, FindIndex(list, id));
    }
  }

  /** With distinct ids, removing the item that carries an id leaves no item with that id in its list. */
  lemma UniqueIdGone(s: AppState, list: seq<Item>, i: int)
    requires IdsUnique(s)
    requires list == s.data.pending || list == s.data.completed
    requires 0 <= i < |list|
    ensures !Contains(RemoveAt(list, i), list[i].id)
  {
    var rest := RemoveAt(list, i);
    if Contains(rest, list[i].id) {
      var j :| 0 <= j < |rest| && rest[j].id == list[i].id;
      TwoIdsInList(s, list, i, if j < i then j else j + 1);
    }
  }

  /** Two positions of one list with the same id contradict distinct ids. */
  lemma TwoIdsInList(s: AppState, list: seq<Item>, i: int, j: int)
    requires list == s.data.pending || list == s.data.completed
    requires 0 <= i < |list| && 0 <= j < |list| && i != j && list[i].id == list[j].id
    ensures IdBag(s.data)[list[i].id] >= 2
  {
    var lo, hi := if i < j then i else j, if i < j then j else i;
    var x := list[i].id;
    var a, b := list[..hi], list[hi..];
    assert list == a + b;
    IdsConcat(a, b);
    assert Ids(a)[lo] == x && Ids(b)[0] == x;
    assert multiset(Ids(list))[x] == multiset(Ids(a))[x] + multiset(Ids(b))[x];
    IdBagParts(s.data);
  }
}

=== FILE: i18n.dfy ===
/**
 The `I18n` class: the current language, the loaded translation table, key
 lookup with the key itself as fallback, and switching between the three
 supported languages.

 Fetching `locales/<code>.json` is modelled by a catalog: the table a
 language code yields when its file loads and parses, and no entry when the
 request fails, answers with an error status, or returns text that is not
 JSON.
 */
module I18n {

  type Table = map<string, string>

  type Catalog = map<string, Table>

  datatype Translator = Translator(currentLanguage: string, translations: Table)

  const DefaultLanguage: string := "pt"

  const SupportedLanguages: seq<string> := ["pt", "en", "es"]

  /** The state the constructor sets up: Portuguese, no translations loaded. */
  function Fresh(): (t: Translator)
    ensures t.currentLanguage == DefaultLanguage && t.translations == map[]
  {
    Translator(DefaultLanguage, map[])
  }

  /** `supportedLanguages.includes(code)`: exactly Portuguese, English and Spanish. */
  predicate IsSupported(code: string) {
    code in SupportedLanguages
  }

  lemma SupportedIsExactly(code: string)
    ensures IsSupported(code) <==> code == "pt" || code == "en" || code == "es"
    ensures IsSupported(DefaultLanguage)
  {
  }

  /**
   `get(key)`: the translation when the table has a non-empty one, otherwise
   the key itself. Never fails.
   */
  function Get(t: Translator, key: string): (r: string)
    ensures key in t.translations && t.translations[key] != "" ==> r == t.translations[key]
    ensures key !in t.translations || t.translations[key] == "" ==> r == key
  {
    if key in t.translations && t.translations[key] != "" then t.translations[key] else key
  }

  /** The outcome of `loadTranslations`: the translator afterwards and the codes fetched, in order. */
  datatype LoadOutcome = LoadOutcome(translator: Translator, attempts: seq<string>)

  /**
   `loadTranslations(code)`: a successful fetch replaces the table. A failed
   fetch of any code but Portuguese is followed by exactly one fetch of
   Portuguese; a failed fetch of Portuguese is not retried. When nothing
   loads the table keeps its previous value. The current language is never
   changed here.
   */
  function LoadTranslations(t: Translator, code: string, catalog: Catalog): (r: LoadOutcome)
    ensures r.translator.currentLanguage == t.currentLanguage
    ensures |r.attempts| >= 1 && r.attempts[0] == code
    ensures code in catalog ==> r.attempts == [code] && r.translator.translations == catalog[code]
    ensures code !in catalog && code == DefaultLanguage ==> r.attempts == [code] && r.translator == t
    ensures code !in catalog && code != DefaultLanguage ==>
      && r.attempts == [code, DefaultLanguage]
      && r.translator.translations == (if DefaultLanguage in catalog then catalog[DefaultLanguage] else t.translations)
    decreases if code == DefaultLanguage then 0 else 1
  {
    if code in catalog then LoadOutcome(t.(translations := catalog[code]), [code])
    else if code != DefaultLanguage then
      var fallback := LoadTranslations(t, DefaultLanguage, catalog);
      LoadOutcome(fallback.translator, [code] + fallback.attempts)
    else LoadOutcome(t, [code])
  }

  /**
   `init(code)`: the current language becomes `code` before any loading, and
   stays `code` even when its translations fail to load. The code is not
   checked against the supported languages.
   */
  function Init(t: Translator, code: string, catalog: Catalog): (r: Translator)
    ensures r.currentLanguage == code
    ensures code in catalog ==> r.translations == catalog[code]
    ensures code !in catalog && DefaultLanguage !in catalog ==> r.translations == t.translations
  {
    LoadTranslations(t.(currentLanguage := code), code, catalog).translator
  }

  /**
   `changeLanguage(code)`: a supported code re-initialises the translator with
   it, loading its table or the Portuguese fallback, and answers true; any
   other code answers false and changes nothing.
   */
  function ChangeLanguage(t: Translator, code: string, catalog: Catalog): (r: (Translator, bool))
    ensures r.1 <==> IsSupported(code)
    ensures r.1 ==> r.0.currentLanguage == code
    ensures r.1 && code in catalog ==> r.0.translations == catalog[code]
    ensures r.1 && code !in catalog && code != DefaultLanguage && DefaultLanguage in catalog ==>
              r.0.translations == catalog[DefaultLanguage]
    ensures r.1 && code !in catalog && DefaultLanguage !in catalog ==> r.0.translations == t.translations
    ensures !r.1 ==> r.0 == t
  {
    if IsSupported(code) then (Init(t, code, catalog), true) else (t, false)
  }

  /** `getCurrentLanguage()`. */
  function CurrentLanguage(t: Translator): string {
    t.currentLanguage
  }

  /**
   Initialising with an unknown code whose file is missing keeps that code as
   the current language while the Portuguese table, if it loads, is what
   `get` answers from.
   */
  lemma InitUnknownCodeFallsBackToPortuguese(t: Translator, code: string, catalog: Catalog, key: string)
    requires code !in catalog && code != DefaultLanguage && DefaultLanguage in catalog
    ensures var r := Init(t, code, catalog);
      && r.currentLanguage == code
      && Get(r, key) == Get(Translator(DefaultLanguage, catalog[DefaultLanguage]), key)
  {
  }
}

=== FILE: lists.dfy ===
/**
 Operations on one item list that the engine builds on: the first-match
 lookup of `Array.prototype.findIndex`, the removal of `splice(i, 1)`, and
 the id arithmetic behind `nextId`.
 */
module Lists {
  import opened Types

  /** Some item of `items` carries `id`. */
  predicate Contains(items: seq<Item>, id: int) {
    exists k :: 0 <= k < |items| && items[k].id == id
  }

  /** The ids of `items`, in list order. */
  function Ids(items: seq<Item>): seq<int> {
    seq(|items|, k requires 0 <= k < |items| => items[k].id)
  }

  /** The ids of both lists as a multiset: what the id invariants are stated over. */
  function IdBag(d: ListData): multiset<int> {
    multiset(Ids(AllItems(d)))
  }

  /**
   `items.findIndex(item => item.id === id)`: the position of the first item
   carrying `id`, or -1 when there is none.
   */
  function FindIndex(items: seq<Item>, id: int): (r: int)
    ensures -1 <= r < |items|
    ensures r == -1 <==> !Contains(items, id)
    ensures r >= 0 ==> items[r].id == id && !Contains(items[..r], id)
  {
    if |items| == 0 then -1
    else if items[0].id == id then 0
    else
      var k := FindIndex(items[1..], id);
      assert forall j :: 0 < j < |items| ==> items[j] == items[1..][j - 1];
      if k == -1 then -1
      else
        assert items[1..][..k] == items[1..k + 1];
        k + 1
  }

  /**
   `items.splice(i, 1)`: the list without position `i`; everything before it
   keeps its place, everything after it moves up by one.
   */
  function RemoveAt(items: seq<Item>, i: int): (r: seq<Item>)
    requires 0 <= i < |items|
    ensures |r| == |items| - 1
    ensures forall k :: 0 <= k < i ==> r[k] == items[k]
    ensures forall k :: i <= k < |r| ==> r[k] == items[k + 1]
    ensures multiset(r) + multiset{items[i]} == multiset(items)
  {
    assert items == items[..i] + [items[i]] + items[i + 1..];
    items[..i] + items[i + 1..]
  }

  lemma IdsConcat(a: seq<Item>, b: seq<Item>)
    ensures Ids(a + b) == Ids(a) + Ids(b)
  {
  }

  /** The id bag is the ids of the pending list together with those of the completed list. */
  lemma IdBagParts(d: ListData)
    ensures IdBag(d) == multiset(Ids(d.pending)) + multiset(Ids(d.completed))
  {
    IdsConcat(d.pending, d.completed);
  }

  lemma IdsRemoveAt(items: seq<Item>, i: int)
    requires 0 <= i < |items|
    ensures multiset(Ids(RemoveAt(items, i))) + multiset{items[i].id} == multiset(Ids(items))
  {
    assert items == items[..i] + [items[i]] + items[i + 1..];
    IdsConcat(items[..i] + [items[i]], items[i + 1..]);
    IdsConcat(items[..i], [items[i]]);
    IdsConcat(items[..i], items[i + 1..]);
  }

  /** `Math.max(...ids)` over a non-empty list: an upper bound that some item attains. */
  function MaxId(items: seq<Item>): (m: int)
    requires |items| > 0
    ensures forall k :: 0 <= k < |items| ==> items[k].id <= m
    ensures Contains(items, m)
  {
    if |items| == 1 then items[0].id
    else
      var rest := MaxId(items[1..]);
      assert forall k :: 1 <= k < |items| ==> items[k] == items[1..][k - 1];
      if items[0].id >= rest then items[0].id else rest
  }

  /**
   The id the next added item receives after a load or an import: one more
   than the largest id in use, or 1 when there are no items.
   */
  function NextIdFor(items: seq<Item>): (r: int)
    ensures |items| == 0 ==> r == 1
    ensures forall k :: 0 <= k < |items| ==> items[k].id < r
    ensures |items| > 0 ==> Contains(items, r - 1)
  {
    if |items| > 0 then MaxId(items) + 1 else 1
  }

  /** Every id in use lies below `NextIdFor`, so the next added id is fresh. */
  lemma NextIdForIsFresh(items: seq<Item>)
    ensures NextIdFor(items) !in multiset(Ids(items))
  {
  }

  function SampleItem(id: int): Item {
    Item(id, "item", 1, Some(1.0), None, Some(1.0), None, None)
  }

  /** A state holding ids 3, 7 and 5 continues at 8; an empty one starts at 1. */
  lemma NextIdExamples()
    ensures NextIdFor([SampleItem(3), SampleItem(7), SampleItem(5)]) == 8
    ensures NextIdFor([]) == 1
  {
    var items := [SampleItem(3), SampleItem(7), SampleItem(5)];
    assert MaxId(items[2..]) == 5;
    assert MaxId(items[1..]) == 7;
  }
}

=== FILE: rounding.dfy ===
/**
 Rounding of weights to two decimal places, the effect of
 `parseFloat(x.toFixed(2))` on the exact value of `x`: the nearest multiple
 of 0.01, ties going up.
 */
module Rounding {

  /** `x` is a whole number of hundredths. */
  predicate IsHundredth(x: real) {
    (x * 100.0).Floor as real == x * 100.0
  }

  function Round2(x: real): (r: real)
    ensures IsHundredth(r)
    ensures x - 0.005 < r <= x + 0.005
  {
    var k := (x * 100.0 + 0.5).Floor;
    assert (k as real / 100.0) * 100.0 == k as real;
    k as real / 100.0
  }

  /** The contract of `Round2` pins its result down: no other hundredth lies in the window. */
  lemma Round2Unique(x: real, r: real)
    requires IsHundredth(r)
    requires x - 0.005 < r <= x + 0.005
    ensures r == Round2(x)
  {
    var k := (r * 100.0).Floor;
    var y := x * 100.0 + 0.5;
    assert k as real <= y < k as real + 1.0;
    FloorOfWindow(y, k);
    assert Round2(x) == k as real / 100.0;
  }

  lemma FloorOfWindow(y: real, k: int)
    requires k as real <= y < k as real + 1.0
    ensures y.Floor == k
  {
  }

  /** Rounding an already rounded weight changes nothing. */
  lemma Round2Idempotent(x: real)
    ensures Round2(Round2(x)) == Round2(x)
  {
    var r := Round2(x);
    Round2Unique(r, r);
  }

  /** Rounding preserves the order of weights. */
  lemma Round2Monotone(x: real, y: real)
    requires x <= y
    ensures Round2(x) <= Round2(y)
  {
    FloorMonotone(x * 100.0 + 0.5, y * 100.0 + 0.5);
  }

  lemma FloorMonotone(a: real, b: real)
    requires a <= b
    ensures a.Floor <= b.Floor
  {
  }

  /** A non-negative weight never rounds below zero. */
  lemma Round2NonNegative(x: real)
    requires x >= 0.0
    ensures Round2(x) >= 0.0
  {
    var r := Round2(x);
    assert (r * 100.0).Floor as real > -0.5;
  }
}

=== FILE: share.dfy ===
/**
 The content of the message `exportToWhatsApp` shares: a title, one line per
 pending item, the totals and a footer, in the texts of the chosen language.
 The message is kept structured; the number formatting and the URL encoding
 that turn it into a link are not modelled.
 */
module Share {
  import opened Types
  import Aggregates
  import I18n
  import Engine
  import Rounding

  datatype Texts = Texts(title: string, items: string, weight: string, total: string, footer: string)

  const PortugueseTexts: Texts :=
    Texts("Lista de Compras - Cestinho", "itens", "kg", "Total", "Lista criada com Cestinho")
  const EnglishTexts: Texts :=
    Texts("Shopping List - Little Basket", "items", "kg", "Total", "List created with Little Basket")
  const SpanishTexts: Texts :=
    Texts("Lista de Compras - Cestita", "art\U{ed}culos", "kg", "Total", "Lista creada con Cestita")

  /** `texts[lang] || texts.pt`. */
  function TextsFor(language: string): Texts {
    if language == "en" then EnglishTexts
    else if language == "es" then SpanishTexts
    else PortugueseTexts
  }

  /**
   The message has texts of its own for exactly the supported languages; any
   other code falls back to the Portuguese texts.
   */
  lemma TextsForSupported(language: string)
    ensures !I18n.IsSupported(language) ==> TextsFor(language) == TextsFor(I18n.DefaultLanguage)
    ensures I18n.IsSupported(language) && language != I18n.DefaultLanguage ==>
              TextsFor(language) != TextsFor(I18n.DefaultLanguage)
  {
  }

  /** The unit weight a message line shows: `unitWeight || weight || 0`. */
  function LineUnitWeight(item: Item): real {
    OrElse(item.unitWeight, OrElse(item.weight, 0.0))
  }

  /** The total a message line shows: `totalWeight || quantity * LineUnitWeight`. */
  function LineWeight(item: Item): real {
    OrElse(item.totalWeight, item.quantity as real * LineUnitWeight(item))
  }

  datatype Line = Line(quantity: int, name: string, unitWeight: real, lineWeight: real)

  datatype Message = Message(texts: Texts, lines: seq<Line>, totalItems: int, totalWeight: real)

  function LineOf(item: Item): Line {
    Line(item.quantity, item.name, LineUnitWeight(item), LineWeight(item))
  }

  /**
   An empty pending list produces no message. Otherwise there is one line
   per pending item, in order, and the totals line carries the same figures
   as the totals under the list.
   */
  function BuildMessage(pending: seq<Item>, language: string): (r: Option<Message>)
    ensures r.None? <==> |pending| == 0
    ensures r.Some? ==>
      && |r.value.lines| == |pending|
      && (forall k :: 0 <= k < |pending| ==>
            && r.value.lines[k].quantity == pending[k].quantity
            && r.value.lines[k].name == pending[k].name
            && r.value.lines[k].unitWeight == LineUnitWeight(pending[k])
            && r.value.lines[k].lineWeight == LineWeight(pending[k]))
      && r.value.totalItems == Aggregates.CountTotal(pending)
      && r.value.totalWeight == Aggregates.WeightTotal(pending)
      && r.value.texts == TextsFor(language)
  {
    if |pending| == 0 then None
    else
      var lines := seq(|pending|, k requires 0 <= k < |pending| => LineOf(pending[k]));
      Some(Message(TextsFor(language), lines,
                   Aggregates.CountTotal(pending), Aggregates.WeightTotal(pending)))
  }

  /**
   A line's weight differs from the item's share of the total weight exactly
   for records without a truthy `totalWeight` whose `unitWeight` is truthy
   and yields another product than the legacy `weight` field does.
   */
  lemma LineWeightMismatch(item: Item)
    ensures LineWeight(item) != Aggregates.EffectiveWeight(item) <==>
      && !Truthy(item.totalWeight) && Truthy(item.unitWeight)
      && item.quantity as real * item.unitWeight.value != item.quantity as real * OrElse(item.weight, 0.0)
  {
  }

  /**
   Every item the add form accepts shows the same weight on its line as in
   the totals: its rounded total can only be 0 when its rounded unit weight
   is 0 too.
   */
  lemma FormItemsAgree(id: int, name: string, quantity: int, weight: real, now: Timestamp)
    requires quantity > 0 && weight > 0.0
    ensures var item := Engine.NewItem(id, name, quantity, weight, now);
            LineWeight(item) == Aggregates.EffectiveWeight(item)
  {
    var total := Rounding.Round2(quantity as real * weight);
    if total == 0.0 {
      Rounding.Round2Monotone(weight, quantity as real * weight);
      Rounding.Round2NonNegative(weight);
    }
  }

  /**
   A record with a unit weight but no stored total: 3 units of 2 kg show
   6 kg on their line and add 0 kg to the totals line.
   */
  lemma LegacyRecordExample()
    ensures var item := Item(1, "arroz", 3, Some(2.0), None, None, None, None);
      && LineWeight(item) == 6.0
      && Aggregates.EffectiveWeight(item) == 0.0
      && BuildMessage([item], "pt").value.lines[0].lineWeight == 6.0
      && BuildMessage([item], "pt").value.totalWeight == 0.0
  {
    var item := Item(1, "arroz", 3, Some(2.0), None, None, None, None);
    assert Aggregates.WeightTotal([item]) == Aggregates.WeightTotal([]) + Aggregates.EffectiveWeight(item);
  }
}

=== FILE: storage.dfy ===
/**
 The `Storage` class: the item document and the settings document kept in
 the browser's key-value store under two keys, their defaults when a key is
 missing or unreadable, and the export and import of both as one file.

 A key holds a parsed document, or something `JSON.parse` rejects, or
 nothing. A write may fail (the store is full); `writeOk` says whether the
 store accepts the writes of the step being modelled.
 */
module Storage {
  import opened Types

  const DataKey: string := "cestinho-data"
  const SettingsKey: string := "cestinho-settings"

  /** What one key of the store holds. */
  datatype Slot<T> = Empty | Corrupt | Holds(doc: T)

  /** The two keys the program uses, `DataKey` and `SettingsKey`. */
  datatype Store = Store(data: Slot<ListData>, settings: Slot<Settings>)

  /** The outcome of a write: the store afterwards and the boolean the method returns. */
  datatype Saved = Saved(store: Store, ok: bool)

  /** A store in which neither key has been written. */
  const EmptyStore: Store := Store(Empty, Empty)

  /** Writing the item document replaces it, and only it, when the store accepts the write. */
  function SaveData(st: Store, d: ListData, writeOk: bool): (r: Saved)
    ensures r.ok == writeOk
    ensures r.ok ==> r.store.data == Holds(d) && r.store.settings == st.settings
    ensures !r.ok ==> r.store == st
  {
    if writeOk then Saved(st.(data := Holds(d)), true) else Saved(st, false)
  }

  /** The stored item document, or two empty lists when the key is missing or unreadable. */
  function LoadData(st: Store): (d: ListData)
    ensures st.data.Holds? ==> d == st.data.doc
    ensures !st.data.Holds? ==> d.pending == [] && d.completed == []
  {
    match st.data
    case Holds(doc) => doc
    case _ => EmptyData
  }

  /** Writing the settings document replaces it, and only it, when the store accepts the write. */
  function SaveSettings(st: Store, s: Settings, writeOk: bool): (r: Saved)
    ensures r.ok == writeOk
    ensures r.ok ==> r.store.settings == Holds(s) && r.store.data == st.data
    ensures !r.ok ==> r.store == st
  {
    if writeOk then Saved(st.(settings := Holds(s)), true) else Saved(st, false)
  }

  /** The stored settings, or 10 units, 15 kg and Portuguese when the key is missing or unreadable. */
  function LoadSettings(st: Store): (s: Settings)
    ensures st.settings.Holds? ==> s == st.settings.doc
    ensures !st.settings.Holds? ==> s.maxItems == 10 && s.maxWeight == 15.0 && s.language == "pt"
  {
    match st.settings
    case Holds(doc) => doc
    case _ => DefaultSettings
  }

  /** A successful save is read back unchanged, and leaves the other key as it was. */
  lemma SaveLoadRoundTrip(st: Store, d: ListData, s: Settings)
    ensures LoadData(SaveData(st, d, true).store) == d
    ensures LoadSettings(SaveData(st, d, true).store) == LoadSettings(st)
    ensures LoadSettings(SaveSettings(st, s, true).store) == s
    ensures LoadData(SaveSettings(st, s, true).store) == LoadData(st)
  {
  }

  /** `clearAllData`: both keys are removed, so both loads fall back to their defaults. */
  function ClearAllData(st: Store): (r: Store)
    ensures r.data == Empty && r.settings == Empty
    ensures LoadData(r) == EmptyData && LoadSettings(r) == DefaultSettings
  {
    EmptyStore
  }

  /** The file `exportData` writes: both lists, the settings and the time of export. */
  datatype ExportDoc = ExportDoc(pending: seq<Item>, completed: seq<Item>, settings: Settings, exportDate: Timestamp)

  /** Export reads both documents through the loads, defaults included, and stamps the time. */
  function Export(st: Store, now: Timestamp): (e: ExportDoc)
    ensures e.pending == LoadData(st).pending && e.completed == LoadData(st).completed
    ensures e.settings == LoadSettings(st)
    ensures e.exportDate == now
  {
    var d := LoadData(st);
    ExportDoc(d.pending, d.completed, LoadSettings(st), now)
  }

  /**
   A parsed import file. `None` stands for a field that is missing or holds a
   falsy value (`null`, `false`, `0`, `""`); any list, even an empty one, is
   truthy.
   */
  datatype Document = Document(
    pending: Option<seq<Item>>,
    completed: Option<seq<Item>>,
    settings: Option<Settings>,
    exportDate: Option<Timestamp>)

  /** What the file reader delivers: a read error, text `JSON.parse` rejects, or a document. */
  datatype ImportSource = ReadFailure | Unparsable | Parsed(doc: Document)

  datatype ImportError = ReadError | ParseError | InvalidFormat

  /** A successful import: the store afterwards and the item document handed back to the caller. */
  datatype Imported = Imported(store: Store, data: ListData)

  /**
   The export file as the importer reads it back. `JSON.stringify` followed by
   `JSON.parse` is taken to give back every field as written.
   */
  function AsDocument(e: ExportDoc): Document {
    Document(Some(e.pending), Some(e.completed), Some(e.settings), Some(e.exportDate))
  }

  /**
   The `onload` handler of `importData`. The only check is that `pending` and
   `completed` are both truthy; it happens before anything is written, and
   the items themselves are not examined. The two lists are then saved, the
   settings only if the file has them, and exactly the two lists are handed
   back; `exportDate` is dropped. Failed writes are not reported.
   */
  function Import(st: Store, src: ImportSource, writeOk: bool): (r: Result<Imported, ImportError>)
    ensures src.ReadFailure? ==> r == Failure(ReadError)
    ensures src.Unparsable? ==> r == Failure(ParseError)
    ensures src.Parsed? ==>
      (r.Failure? <==> src.doc.pending.None? || src.doc.completed.None?)
    ensures r.Success? ==>
      && r.value.data == ListData(src.doc.pending.value, src.doc.completed.value)
      && (writeOk ==> LoadData(r.value.store) == r.value.data)
      && (writeOk && src.doc.settings.Some? ==> LoadSettings(r.value.store) == src.doc.settings.value)
      && (src.doc.settings.None? ==> r.value.store.settings == st.settings)
      && (!writeOk ==> r.value.store == st)
  {
    match src
    case ReadFailure => Failure(ReadError)
    case Unparsable => Failure(ParseError)
    case Parsed(doc) =>
      if doc.pending.None? || doc.completed.None? then Failure(InvalidFormat)
      else
        var dataToSave := ListData(doc.pending.value, doc.completed.value);
        var st1 := SaveData(st, dataToSave, writeOk).store;
        var st2 := if doc.settings.Some? then SaveSettings(st1, doc.settings.value, writeOk).store else st1;
        Success(Imported(st2, dataToSave))
  }

  /**
   Export followed by import, into any store, reproduces the exported lists
   and settings there: the loads of the target afterwards equal the loads of
   the source, and the import hands back the source's lists.
   */
  lemma ExportImportRoundTrip(source: Store, target: Store, now: Timestamp)
    ensures var r := Import(target, Parsed(AsDocument(Export(source, now))), true);
      && r.Success?
      && r.value.data == LoadData(source)
      && LoadData(r.value.store) == LoadData(source)
      && LoadSettings(r.value.store) == LoadSettings(source)
  {
    var e := Export(source, now);
    assert ListData(e.pending, e.completed) == LoadData(source);
  }

  /** An import without settings keeps whatever settings are stored, defaults included. */
  lemma ImportWithoutSettingsKeepsSettings(st: Store, p: seq<Item>, c: seq<Item>, date: Option<Timestamp>, writeOk: bool)
    ensures var r := Import(st, Parsed(Document(Some(p), Some(c), None, date)), writeOk);
      r.Success? && LoadSettings(r.value.store) == LoadSettings(st)
  {
  }
}

=== FILE: text.dfy ===
/**
 `String.prototype.trim`, which the add form applies to the item name before
 testing it for emptiness.
 */
module Text {

  /** The ECMAScript WhiteSpace and LineTerminator code points. */
  predicate IsWhitespace(c: char) {
    || c == '\t' || c == '\n' || c == '\U{000B}' || c == '\U{000C}' || c == '\r'
    || c == ' ' || c == '\U{00A0}' || c == '\U{1680}'
    || ('\U{2000}' <= c <= '\U{200A}')
    || c == '\U{2028}' || c == '\U{2029}' || c == '\U{202F}' || c == '\U{205F}'
    || c == '\U{3000}' || c == '\U{FEFF}'
  }

  predicate AllWhitespace(s: string) {
    forall i :: 0 <= i < |s| ==> IsWhitespace(s[i])
  }

  /** The number of whitespace characters at the start of `s`. */
  function LeadingWhitespace(s: string): (n: nat)
    ensures n <= |s| && AllWhitespace(s[..n])
    ensures n < |s| ==> !IsWhitespace(s[n])
  {
    if |s| > 0 && IsWhitespace(s[0]) then
      LeadingWhitespace(s[1..]) + 1
    else 0
  }

  /** The number of whitespace characters at the end of `s`. */
  function TrailingWhitespace(s: string): (n: nat)
    ensures n <= |s| && AllWhitespace(s[|s| - n..])
    ensures n < |s| ==> !IsWhitespace(s[|s| - n - 1])
  {
    if |s| > 0 && IsWhitespace(s[|s| - 1]) then
      TrailingWhitespace(s[..|s| - 1]) + 1
    else 0
  }

  /** A character that is not whitespace stops the count of trailing whitespace before it. */
  lemma TrailingStopsAt(s: string, i: int)
    requires 0 <= i < |s| && !IsWhitespace(s[i])
    ensures TrailingWhitespace(s) < |s| - i
  {
  }

  /**
   `String.prototype.trim`: the part of `s` between its leading and its
   trailing whitespace, or the empty string when there is nothing else.
   */
  function Trim(s: string): (r: string)
    ensures |r| <= |s|
  {
    var i := LeadingWhitespace(s);
    if i == |s| then []
    else
      TrailingStopsAt(s, i);
      s[i..|s| - TrailingWhitespace(s)]
  }

  /**
   The trimmed name is a contiguous piece of `s` with only whitespace cut from
   either end, it neither starts nor ends with whitespace, and it is empty
   exactly when `s` is all whitespace.
   */
  lemma TrimSpec(s: string)
    ensures var r := Trim(s);
      && (exists i :: 0 <= i <= |s| - |r| && r == s[i..i + |r|]
                      && AllWhitespace(s[..i]) && AllWhitespace(s[i + |r|..]))
      && (|r| > 0 ==> !IsWhitespace(r[0]) && !IsWhitespace(r[|r| - 1]))
      && (|r| == 0 <==> AllWhitespace(s))
  {
    var i := LeadingWhitespace(s);
    if i == |s| {
      assert s[..i] == s && s[i..] == [];
    } else {
      TrailingStopsAt(s, i);
      var n := TrailingWhitespace(s);
      var r := s[i..|s| - n];
      assert r == s[i..i + |r|] && s[i + |r|..] == s[|s| - n..];
      assert r[0] == s[i] && r[|r| - 1] == s[|s| - n - 1];
    }
  }
}

=== FILE: types.dfy ===
/**
 The data model of the shopping list: items, settings and the two item lists,
 plus the small failure-carrying datatypes the operations return.

 Records come from three places: the add form, the browser store and
 imported files. Only the first guarantees every field, so the fields that
 older or hand-edited records may lack are optional here, and the JavaScript
 truthiness tests the program applies to them are spelled out.
 */
module Types {

  datatype Option<T> = None | Some(value: T)

  datatype Result<T, E> = Success(value: T) | Failure(error: E)

  /** An ISO-8601 timestamp; its contents never matter to the logic. */
  type Timestamp = string

  /** JavaScript truthiness of an optional number: a missing field and 0 are falsy. */
  predicate Truthy(x: Option<real>) {
    x.Some? && x.value != 0.0
  }

  /** The JavaScript expression `x || fallback` for an optional number. */
  function OrElse(x: Option<real>, fallback: real): real {
    if Truthy(x) then x.value else fallback
  }

  /**
   One shopping-list entry. `weight` is the per-unit weight field written by
   earlier versions of the program; current records carry `unitWeight`
   and the rounded `totalWeight` instead. `dateCompleted` is present while
   the item sits in the completed list.
   */
  datatype Item = Item(
    id: int,
    name: string,
    quantity: int,
    unitWeight: Option<real>,
    weight: Option<real>,
    totalWeight: Option<real>,
    dateAdded: Option<Timestamp>,
    dateCompleted: Option<Timestamp>)

  /** Thresholds for the pending list and the chosen interface language. */
  datatype Settings = Settings(maxItems: int, maxWeight: real, language: string)

  /** The item document: the pending and the completed list, in display order. */
  datatype ListData = ListData(pending: seq<Item>, completed: seq<Item>)

  const DefaultSettings: Settings := Settings(10, 15.0, "pt")

  const EmptyData: ListData := ListData([], [])

  /** Both lists, pending first, as the id computations see them. */
  function AllItems(d: ListData): seq<Item> {
    d.pending + d.completed
  }
}
